=== FILE: README.md ===
# Geography chat: preference, prompt, rate-limit and history rules in Dafny

This project models the deterministic core of a small geography chat
application. The language-model calls and the hosted key-value store are
abstracted away. What is left:

- the **preference schema**: three independent field rules;
- the **per-user preference store**: read, write one, merge an extraction;
- **system-prompt selection**: the onboarding prompt versus the expert prompt;
- **client address selection** and the shaping of a rate-limiter verdict;
- the **message history**: decode with fallback, encode, seed on first read;
- the **preferences API**: GET, and POST with validate-then-write.

The key-value store is a `map<string, string>` threaded through pure
functions. An absent key reads as `null` (`None`). Per-user entries live
under `<name>:<userId>` keys (`Kv.Namespaced`). JSON is not modelled. A
`Messages.Codec` pairs an encoder with a decoder. Decoding reports a parse
failure, a non-array value, or an array of messages. The codec assumes a
stored array always holds messages; see "Left out". Properties that need
JSON to behave as JSON assume `Messages.Lawful(codec)`: an encoding is never
empty, and decoding an encoding gives the list back.

Modules, one per source file, plus helpers:

| module | models |
|---|---|
| `Schema` | `src/schemas/preferences.ts` |
| `Preferences` | `src/lib/preferences.ts` |
| `Prompts` | `src/lib/prompts.ts` |
| `RateLimit` | `src/lib/rate-limit.ts` |
| `Messages` | `src/lib/messages.ts` |
| `MessagesRoute` | `src/app/api/messages/route.ts` |
| `PreferencesRoute` | `src/app/api/preferences/route.ts` |
| `Isolation` | how the writers above stay out of each other's keys |
| `Kv`, `Text`, `Wrappers` | the store, JavaScript string primitives, `Option`/`Result` |

Behaviour of the code worth knowing before reading the model:

- **Shared keys in the preferences API.** The API reads and writes the bare
  keys `favoriteCountry`, `favoriteContinent` and `favoriteDestination`, so
  all users share them. The per-user `field:<userId>` keys are used only by
  `src/lib/preferences.ts`. `Isolation.PostLeavesUserKeys` proves that the
  two sets of keys never meet.
- **Empty history is reseeded.** A stored history that fails to decode counts
  as empty, and `GET /messages` overwrites it with the welcome message.
- **No conversation state machine.** The ladder "ask for the country, then
  the continent, then the destination" appears only as text inside the
  onboarding prompt (`src/lib/prompts.ts:29-33`). No file of the core
  implements it, so the model has only the prompt text.

Modelling choices for library behaviour:

- **`\s` and `trim()`.** `Text.IsJsWhitespace` is the ECMAScript WhiteSpace
  and LineTerminator set. That covers U+0009–U+000D, U+0020, U+00A0, U+1680,
  U+2000–U+200A, U+2028, U+2029, U+202F, U+205F, U+3000 and U+FEFF. The
  regex class `\s` and `String.prototype.trim` use this same set.
- **yup with `abortEarly: false`.** yup runs its internal tests first: the
  presence check of `required()` and the `oneOf` whitelist. When one of them
  fails, that field's other tests are skipped. So a missing value
  (`undefined` or `null`) reports only the required message. A present
  continent outside the list, including `""`, reports only the choice
  message. A present country or destination string runs every test and
  reports each one it fails: `""` reports the required, minimum-length and
  alphabet messages. The thrown error's `message` is the single message when
  there is one, and `"<n> errors occurred"` otherwise.

## Model

| member | source | states |
|---|---|---|
| `Schema.TextErrors` | src/schemas/preferences.ts:4-24 | A country or destination has no errors iff it is present, non-empty, within the length bounds (both inclusive) and drawn from letters, whitespace and `-`. A missing value reports exactly the required message. For a present string, each message appears iff its test fails: required iff empty, minimum iff too short, maximum iff too long, alphabet iff the pattern fails. No message appears twice, so the count behind the 422 text is fixed. |
| `Schema.CountryLengthBoundary` | src/schemas/preferences.ts:7-8 | A well-formed 50-character country is accepted despite the "less than 50" wording. At 51 characters only the maximum-length message is reported. |
| `Schema.ContinentErrors` | src/schemas/preferences.ts:11-17 | A continent has no errors iff it is one of exactly seven names, compared case-sensitively. Missing gives only the required message. Any other present value, the empty string included, reports the choice message and nothing else. |
| `Schema.ContinentChoiceMessageNamesEach` | src/schemas/preferences.ts:14-16 | The continent choice message names every one of the seven continents. |
| `Schema.Validate` | src/schemas/preferences.ts:3-25 | The object is valid iff each of the three fields is valid on its own. A valid object yields exactly the submitted values. A rejection carries at least one message, and its messages are exactly the union of the three fields' messages. |
| `Schema.ValidationMessage` | src/app/api/preferences/route.ts:32-50 | The error message is the single message when there is one. Otherwise it is the count as `toString()` writes it (canonical decimal, no leading zero), which reads back as the number of messages, followed by " errors occurred". |
| `Kv.NamespacedInjective` | src/lib/preferences.ts:23-29 | When prefixes contain no colon, a `prefix:userId` key determines both its prefix and its user. |
| `Preferences.PreferenceKeysDistinct` | src/lib/preferences.ts:16-18 | The preference keys of different fields or different users never collide. |
| `Preferences.GetPreferences` | src/lib/preferences.ts:13-21 | Each returned preference is the value stored under `field:userId`, or null when that key is absent. |
| `Preferences.SetPreference` | src/lib/preferences.ts:23-29 | Exactly the entry `key:userId` changes, and it is set to the value. |
| `Preferences.UpdateUserPreferences` | src/lib/preferences.ts:31-50 | Each `field:userId` ends up with the extracted value when that value is truthy, and keeps its old value otherwise. No other key changes. |
| `Preferences.ReadAfterUpdate` | src/lib/preferences.ts:13-49 | Reading back after a merge gives each truthy extracted value, and the prior value for every other field. |
| `Preferences.UpdateWithNothingTruthy` | src/lib/preferences.ts:35-49 | An extraction whose fields are all null or empty leaves the store unchanged. |
| `Preferences.UpdateIdempotent` | src/lib/preferences.ts:35-49 | Merging the same extraction twice gives the same store as merging it once. |
| `Preferences.UpdateIgnoresFlags` | src/lib/preferences.ts:31-50 | Only the three field values matter. The update flag and the invalid field and reason are never consulted. |
| `Prompts.MissingPreferences` | src/lib/prompts.ts:16-19 | The missing list holds exactly the names of the empty preferences. It is ordered country, continent, destination, without repeats. It is empty iff all three are set. |
| `Prompts.GetSystemPrompt` | src/lib/prompts.ts:21-58 | The onboarding prompt is returned iff at least one preference is empty. Otherwise the expert prompt for the three values and the messages is returned. |
| `Prompts.PromptsDiffer` | src/lib/prompts.ts:22-37 | The expert prompt and the onboarding prompt are never the same text. |
| `Prompts.OnboardingIgnoresValuesAndMessages` | src/lib/prompts.ts:21-35 | The onboarding prompt is the same whichever preferences are missing and whatever the conversation is. |
| `Prompts.OnboardingListsContinents` | src/lib/prompts.ts:24-26 | The onboarding prompt contains the continent list joined by ", ", and so names each continent. |
| `Prompts.ExpertPromptStatesPreferences` | src/lib/prompts.ts:39-42 | The expert prompt contains each preference value verbatim on its labelled line. |
| `Prompts.ExpertPromptEndsWithTranscript` | src/lib/prompts.ts:56-58 | The expert prompt ends with the conversation transcript followed by a newline. |
| `Prompts.TranscriptSplitsIntoLines` | src/lib/prompts.ts:57 | When no message spans several lines, the transcript splits at newlines into exactly one `role: content` line per message, in input order. |
| `RateLimit.ScanHeaders` | src/lib/rate-limit.ts:67-78 | The first header in the list with a non-empty value decides the result. For `x-forwarded-for` the result is its first address; for any other header it is the raw value. The result is "unknown" when no header has a value. |
| `RateLimit.ClientIp` | src/lib/rate-limit.ts:55-79 | The same rule over the fixed order x-forwarded-for, x-real-ip, cf-connecting-ip, true-client-ip, x-forwarded, forwarded-for, forwarded. Only the first header is split and trimmed. |
| `RateLimit.ForwardedAddressShape` | src/lib/rate-limit.ts:71-73 | The address taken from `x-forwarded-for` contains no comma and has no surrounding whitespace. |
| `RateLimit.ShapeVerdict` | src/lib/rate-limit.ts:24-52 | A denied verdict gives `success = false`, no pass-through values, and a 429 JSON response. Its limit, remaining and reset headers are canonical decimal numerals (no leading zero, no "-0") that read back as the verdict's numbers. An allowed verdict gives no response and passes remaining and reset through unchanged. |
| `RateLimit.CheckRateLimit` | src/lib/rate-limit.ts:15-53 | The limiter is asked about the address `getClientIp` chooses. That is the first address of `x-forwarded-for` when that header decides, the raw value of the first other header with a value, or "unknown" when none has one. Its verdict is shaped as above. |
| `Messages.GetMessages` | src/lib/messages.ts:5-20 | A missing or empty value, a parse failure and a non-array all read as the empty history. A non-empty stored value that decodes to an array is returned as exactly that array. A non-empty result always comes from such a value. |
| `Messages.SetMessages` | src/lib/messages.ts:22-24 | Exactly the key `messages:userId` changes, and it holds the encoded list. |
| `Messages.GetAfterSet` | src/lib/messages.ts:5-24 | Under the codec round-trip law, reading a history after storing it returns the stored list. |
| `Messages.SetLeavesOtherUsers` | src/lib/messages.ts:6-23 | Storing one user's history does not change any other user's history. |
| `MessagesRoute.MessagesGet` | src/app/api/messages/route.ts:5-22 | An empty history is answered with exactly one assistant welcome message, which is persisted under the user's key. A non-empty history is returned unchanged with no write. The answer is never empty. |
| `MessagesRoute.ResponseIsPersisted` | src/app/api/messages/route.ts:11-21 | Under the codec law, what the handler returns is what the store holds for that user afterwards. |
| `MessagesRoute.SecondRequestIsStable` | src/app/api/messages/route.ts:8-21 | Under the codec law, a second request returns the same history, with a single welcome message and not two, and writes nothing. |
| `MessagesRoute.SeedingLeavesOtherUsers` | src/app/api/messages/route.ts:18 | Seeding one user's history leaves every other user's history unchanged. |
| `PreferencesRoute.ErrorResponse` | src/app/api/preferences/route.ts:45-56 | A thrown `Error` maps to 422 with its message. Anything else maps to 500 with the fixed message. |
| `PreferencesRoute.PreferencesGet` | src/app/api/preferences/route.ts:12-25 | GET returns the three values stored under the shared keys (null when absent) and the five fixed suggestions. |
| `PreferencesRoute.PreferencesPost` | src/app/api/preferences/route.ts:27-57 | An unparseable body gets 422 with the parser's message. A parsed body is accepted iff it validates. Any rejection leaves the store unchanged. On success the shared keys hold the submitted values, and the response echoes them with the same suggestions as GET. |
| `PreferencesRoute.PostWritesOnlySharedKeys` | src/app/api/preferences/route.ts:35-37 | POST changes no key other than the three shared keys. |
| `PreferencesRoute.RejectionMessage` | src/app/api/preferences/route.ts:31-50 | A body that fails validation is answered with 422 and the validation error's message. |
| `PreferencesRoute.GetAfterPost` | src/app/api/preferences/route.ts:12-44 | A GET after a successful POST returns exactly the POST's response. |
| `PreferencesRoute.PostIdempotent` | src/app/api/preferences/route.ts:27-44 | Posting the same body twice gives the same store and the same response as posting it once. |
| `PreferencesRoute.CountHidesContinentList` | src/app/api/preferences/route.ts:45-50 | For any store, a valid country with any continent outside the list (such as "Mars", or the empty string) and no destination is answered with 422 "2 errors occurred", which names no continent. |
| `PreferencesRoute.PreferencesPostListingErrors` | src/app/api/preferences/route.ts:27-57 | The corrected POST: success, failure and store behaviour are as before, but a rejected continent always puts the choice message in the 422 answer. |
| `PreferencesRoute.ListedErrorsNameContinents` | src/app/api/preferences/route.ts:45-50 | With the corrected POST, a rejected continent is always answered with text naming each of the seven continents. |
| `Isolation.UpdateIsolated` | src/lib/preferences.ts:35-49 | Merging one user's extraction changes no other user's preferences and no user's history. |
| `Isolation.SetMessagesLeavesPreferences` | src/lib/messages.ts:22-23 | Storing a history changes no user's preferences. |
| `Isolation.MessagesGetLeavesPreferences` | src/app/api/messages/route.ts:11-19 | Seeding a history changes no user's preferences. |
| `Isolation.PostLeavesUserKeys` | src/app/api/preferences/route.ts:35-37 | The preferences API's writes touch no user's per-user preferences and no user's history. |
| `Text.Trim` | src/lib/rate-limit.ts:72 | `trim()` returns the segment left after removing JavaScript whitespace at both ends. The result has none at its ends. |
| `Text.BeforeFirst` | src/lib/rate-limit.ts:72 | `split(",")[0]` is the longest prefix without a comma, and it stops exactly at the first comma. |
| `Text.SplitJoin` | src/lib/prompts.ts:57 | Splitting a join at its separator gives back the pieces when no piece contains the separator. |
| `Text.ParseIntToString` | src/lib/rate-limit.ts:39-41 | The decimal rendering of an integer reads back as that integer. |
| `Text.CanonicalNatIsRendering` | src/lib/rate-limit.ts:39-41 | A canonical numeral is exactly the rendering of its own natural value, so canonical form plus the read-back fixes the exact text of the error count. |
| `Text.CanonicalIntIsRendering` | src/lib/rate-limit.ts:39-41 | A canonical integer numeral is exactly `IntToString` of the value it reads as, so the three X-RateLimit header values are fixed to their exact text. |
| `Text.NatToString` | src/lib/rate-limit.ts:39-41 | `toString()` of a natural number, as in yup's "<n> errors occurred" count: a non-empty run of digits with no leading zero except "0" itself. |
| `Text.IntToString` | src/lib/rate-limit.ts:39-41 | `toString()` of an integer: a canonical numeral, a canonical natural or `-` before a non-zero one. |
| `Text.Join` | src/lib/prompts.ts:24-26 | `Array.prototype.join`, as used at lines 24-26 and 57: no pieces give the empty string, and one piece gives that piece unchanged. |
| `Text.JoinEnds` | src/lib/prompts.ts:57 | A join starts with its first piece, followed by the separator when more pieces come, and ends with its last piece. |
| `Kv.Get` | src/cache/index.ts:6-13 | `cache.get`: an absent key reads as null, and a present key reads as its stored value. |
| `Kv.Put` | src/cache/index.ts:14-20 | `cache.set`: the key afterwards reads as the value, and every other key reads as before. |

## Findings

| source | as written | input that shows it | evidently intended | confidence | as-written member | corrected member |
|---|---|---|---|---|---|---|
| src/app/api/preferences/route.ts:45-50 | A rejected body is answered with `error.message` only. With two or more failed rules, that is yup's count text, and the field messages are dropped. | `{favoriteCountry: "France", favoriteContinent: "Mars"}` with no destination gives 422 "2 errors occurred", which does not list the allowed continents. | Every validation message is returned, so an invalid continent is always reported with the allowed list. | medium; not executed | `PreferencesRoute.CountHidesContinentList` | `PreferencesRoute.PreferencesPostListingErrors` |

## Left out

- Language-model calls: preference extraction (`src/lib/ai.ts`) and the streaming chat relay (`src/app/api/stream/route.ts`). Both are nondeterministic foreign calls. Only the extraction record's shape is modelled, as `Preferences.PreferenceExtraction`.
- `src/app/api/stream/prompt.ts` repeats the expert branch of the prompt selection and is not modelled separately.
- The React pages (`src/app/page.tsx`, `src/app/onboarding/page.tsx`) are UI and fetch code.
- Store failures: the cache wrapper (`src/cache/index.ts`) logs and swallows them. The store is a total map.
- The store client's own deserialisation of non-string values (the `return raw` branch of `getMessages`). Stored values are always strings here.
- The sliding-window limiter itself (10 requests per 60 seconds, `MAX_REQUESTS`) is a foreign library. Its verdict is an input: the function `limiter` given to `RateLimit.CheckRateLimit`.
- Reading request headers and the user identifier is I/O. Headers are a map with lower-case names, so the case-insensitive lookup of `Headers.get` is not modelled. The user identifier is an opaque string.
- `getMessages` returns any array `JSON.parse` yields, because `src/lib/messages.ts:13` checks only `Array.isArray`, not the elements. A stored `[42]` or `[{"role":"user"}]` is returned unchanged, and `GET /messages` then writes nothing. The codec has no outcome for such an array, so the model assumes only message arrays are ever stored. `MessagesRoute.MessagesGet` does not describe a store holding anything else.
- JSON parsing and printing are an abstract codec. The round-trip law is a hypothesis of the lemmas that need it, not a proved fact about JSON.
- Request bodies that parse to something other than an object, and non-string field values (yup's coercion), are not modelled. A body is either a syntax error or an object with optional string fields.
- The order of messages inside a yup validation error is not modelled. `Schema.Validate` fixes field order, but the only observable, the error `message`, depends just on how many messages there are.
- Lengths count Unicode scalar values, not UTF-16 code units. A name with a character outside the Basic Multilingual Plane fails the alphabet rule either way, so acceptance is unaffected. The minimum- and maximum-length messages, and so the 422 text, can differ. JavaScript gives `"😀"` length 2, so the source reports only the alphabet message. The model gives it length 1 and also reports the minimum-length message, so it answers "2 errors occurred".
- The `CONTINENTS` list used by the onboarding prompt is not defined in the core, so `Prompts.GetSystemPrompt` takes it as a parameter.
- Concurrent requests racing on the message history's read-modify-write are not modelled: every request runs alone.

=== FILE: isolation.dfy ===
/**
 * How the writers of the store stay out of each other's way: per-user
 * preference keys, per-user message keys, and the shared preference keys of
 * the preferences API never collide, so each writer changes only what it
 * names.
 */
module Isolation {
  import opened Wrappers
  import opened Kv
  import opened Schema
  import opened Preferences
  import opened Messages
  import MessagesRoute
  import PreferencesRoute

  lemma MessagesKeyIsNotPreferenceKey(f: Field, u: string, v: string)
    ensures MessagesKey(v) != PreferenceKey(f, u)
  {
    if MessagesKey(v) == PreferenceKey(f, u) {
      FieldNamesHaveNoColon(f);
      NamespacedInjective(MessagesPrefix, v, f.Name(), u);
    }
  }

  /** Merging one user's extraction changes no other user's preferences
      and no user's message history. */
  lemma UpdateIsolated(store: Store, userId: string, e: PreferenceExtraction, codec: Codec, other: string)
    ensures var after := UpdateUserPreferences(store, userId, e);
            && (other != userId ==> GetPreferences(after, other) == GetPreferences(store, other))
            && GetMessages(after, codec, other) == GetMessages(store, codec, other)
  {
    var after := UpdateUserPreferences(store, userId, e);
    forall f ensures MessagesKey(other) != PreferenceKey(f, userId) {
      MessagesKeyIsNotPreferenceKey(f, userId, other);
    }
    if other != userId {
      forall g, f ensures PreferenceKey(g, other) != PreferenceKey(f, userId) {
        PreferenceKeysDistinct(g, other, f, userId);
      }
      assert forall g :: GetPreferences(after, other).Value(g) == GetPreferences(store, other).Value(g);
    }
  }

  /** Storing one user's history changes no user's preferences. */
  lemma SetMessagesLeavesPreferences(store: Store, codec: Codec, userId: string, ms: seq<Message>, other: string)
    ensures GetPreferences(SetMessages(store, codec, userId, ms), other) == GetPreferences(store, other)
  {
    var after := SetMessages(store, codec, userId, ms);
    forall f ensures MessagesKey(userId) != PreferenceKey(f, other) {
      MessagesKeyIsNotPreferenceKey(f, other, userId);
    }
    assert forall g :: GetPreferences(after, other).Value(g) == GetPreferences(store, other).Value(g);
  }

  /** Seeding a history changes no user's preferences. */
  lemma MessagesGetLeavesPreferences(store: Store, codec: Codec, userId: string, other: string)
    ensures GetPreferences(MessagesRoute.MessagesGet(store, codec, userId).store, other)
            == GetPreferences(store, other)
  {
    if GetMessages(store, codec, userId) == [] {
      SetMessagesLeavesPreferences(store, codec, userId, [Message(Assistant, MessagesRoute.WelcomeContent)], other);
    }
  }

  /** A namespaced key is never one of the shared preference keys. */
  lemma NamespacedKeyIsNotShared(prefix: string, userId: string)
    ensures Namespaced(prefix, userId) !in {"favoriteCountry", "favoriteContinent", "favoriteDestination"}
  {
    PlainKeyIsNotNamespaced("favoriteCountry", prefix, userId);
    PlainKeyIsNotNamespaced("favoriteContinent", prefix, userId);
    PlainKeyIsNotNamespaced("favoriteDestination", prefix, userId);
  }

  /** The preferences API writes only its three shared keys: no user's
      per-user preferences or history is touched by it. */
  lemma PostLeavesUserKeys(store: Store, req: PreferencesRoute.RequestBody, codec: Codec, userId: string)
    ensures var after := PreferencesRoute.PreferencesPost(store, req).store;
            && GetPreferences(after, userId) == GetPreferences(store, userId)
            && GetMessages(after, codec, userId) == GetMessages(store, codec, userId)
  {
    var after := PreferencesRoute.PreferencesPost(store, req).store;
    forall f ensures Get(after, PreferenceKey(f, userId)) == Get(store, PreferenceKey(f, userId)) {
      NamespacedKeyIsNotShared(f.Name(), userId);
      PreferencesRoute.PostWritesOnlySharedKeys(store, req, PreferenceKey(f, userId));
    }
    NamespacedKeyIsNotShared(MessagesPrefix, userId);
    PreferencesRoute.PostWritesOnlySharedKeys(store, req, MessagesKey(userId));
    assert forall g :: GetPreferences(after, userId).Value(g) == GetPreferences(store, userId).Value(g);
  }
}

=== FILE: kv.dfy ===
/**
 * The hosted key-value store, seen as a finite map from keys to string
 * values. An absent key reads as `null`. Failures of the store (which the
 * application's cache wrapper logs and swallows) are not part of this model.
 */
module Kv {
  import opened Wrappers

  type Store = map<string, string>

  /** `cache.get(key)`: the stored string, or `null` when absent. */
  function Get(store: Store, key: string): (r: Option<string>)
    ensures r.None? <==> key !in store
    ensures r.Some? ==> r.value == store[key]
  {
    if key in store then Some(store[key]) else None
  }

  /** `cache.set(key, value)`. */
  function Put(store: Store, key: string, value: string): (r: Store)
    ensures Get(r, key) == Some(value)
    ensures forall k :: k != key ==> Get(r, k) == Get(store, k)
  {
    store[key := value]
  }

  /** The per-user key convention `<prefix>:<userId>`. */
  function Namespaced(prefix: string, userId: string): string {
    prefix + ":" + userId
  }

  /** As long as prefixes contain no colon, a namespaced key determines
      both its prefix and its user: keys of different users, or of
      different prefixes, never collide. */
  lemma NamespacedInjective(p1: string, u1: string, p2: string, u2: string)
    requires ':' !in p1 && ':' !in p2
    requires Namespaced(p1, u1) == Namespaced(p2, u2)
    ensures p1 == p2 && u1 == u2
  {
    var k := Namespaced(p1, u1);
    assert k[|p1|] == ':';
    assert k[|p2|] == ':';
    assert |p1| == |p2|;
    assert p1 == k[..|p1|] == p2;
    assert u1 == k[|p1| + 1..] == u2;
  }

  /** A key without a colon is never a namespaced key. */
  lemma PlainKeyIsNotNamespaced(plain: string, prefix: string, userId: string)
    requires ':' !in plain
    ensures plain != Namespaced(prefix, userId)
  {
    assert Namespaced(prefix, userId)[|prefix|] == ':';
  }

  /** Two stores that answer every read alike are the same store. */
  lemma StoresEqualByGet(a: Store, b: Store)
    requires forall k :: Get(a, k) == Get(b, k)
    ensures a == b
  {
    assert a.Keys == b.Keys by {
      forall k ensures k in a <==> k in b {
        assert Get(a, k).Some? <==> Get(b, k).Some?;
      }
    }
    forall k | k in a ensures a[k] == b[k] {
      assert Get(a, k) == Get(b, k);
    }
  }

  /** What a request handler leaves behind: the store after its writes, and
      what it answers. */
  datatype Handled<T> = Handled(store: Store, reply: T)
}

=== FILE: messages.dfy ===
/**
 * Per-user message history, stored as one JSON-encoded array under
 * `messages:<userId>`.
 *
 * JSON itself is not modelled: a `Codec` pairs an encoder with a decoder
 * that reports whether the text failed to parse, parsed to something other
 * than an array, or parsed to an array of messages. The properties that
 * rely on JSON behaving as JSON assume `Lawful(codec)`: encoding never
 * yields the empty string and decoding an encoding gives the list back.
 */
module Messages {
  import opened Wrappers
  import opened Kv

  datatype Role = User | Assistant | System {
    /** The role as it appears on the wire. */
    function Name(): string {
      match this
      case User => "user"
      case Assistant => "assistant"
      case System => "system"
    }
  }

  datatype Message = Message(role: Role, content: string)

  /** Outcome of `JSON.parse` followed by `Array.isArray`. */
  datatype Decoded = Malformed | NotAnArray | MessageArray(items: seq<Message>)

  /** `JSON.stringify` and `JSON.parse` for message lists. */
  datatype Codec = Codec(encode: seq<Message> -> string, decode: string -> Decoded)

  /** The round-trip law the rest of the model relies on. */
  ghost predicate Lawful(codec: Codec) {
    forall ms :: codec.encode(ms) != "" && codec.decode(codec.encode(ms)) == MessageArray(ms)
  }

  const MessagesPrefix := "messages"

  /** The store key of a user's history. */
  function MessagesKey(userId: string): string {
    Namespaced(MessagesPrefix, userId)
  }

  /** `getMessages(userId)`: an absent or empty value, a value that fails to
      parse, and one that parses to a non-array all read as the empty
      history; an array is returned as stored. */
  function GetMessages(store: Store, codec: Codec, userId: string): (ms: seq<Message>)
    ensures Get(store, MessagesKey(userId)) in {None, Some("")} ==> ms == []
    ensures MessagesKey(userId) in store && codec.decode(store[MessagesKey(userId)]) in {Malformed, NotAnArray}
            ==> ms == []
    ensures MessagesKey(userId) in store && store[MessagesKey(userId)] != ""
            && codec.decode(store[MessagesKey(userId)]).MessageArray?
            ==> ms == codec.decode(store[MessagesKey(userId)]).items
    ensures ms != [] ==> && MessagesKey(userId) in store
                         && codec.decode(store[MessagesKey(userId)]) == MessageArray(ms)
  {
    match Get(store, MessagesKey(userId))
    case None => []
    case Some(raw) =>
      if raw == "" then []
      else match codec.decode(raw)
           case MessageArray(items) => items
           case _ => []
  }

  /** `setMessages(userId, messages)`: replaces the encoded history under
      the user's key and touches nothing else. */
  function SetMessages(store: Store, codec: Codec, userId: string, ms: seq<Message>): (r: Store)
    ensures Get(r, MessagesKey(userId)) == Some(codec.encode(ms))
    ensures forall k :: k != MessagesKey(userId) ==> Get(r, k) == Get(store, k)
  {
    Put(store, MessagesKey(userId), codec.encode(ms))
  }

  /** Reading a history back after storing it gives the stored list. */
  lemma GetAfterSet(store: Store, codec: Codec, userId: string, ms: seq<Message>)
    requires Lawful(codec)
    ensures GetMessages(SetMessages(store, codec, userId, ms), codec, userId) == ms
  {
    assert codec.encode(ms) != "" && codec.decode(codec.encode(ms)) == MessageArray(ms);
  }

  /** Histories of different users do not affect each other. */
  lemma SetLeavesOtherUsers(store: Store, codec: Codec, userId: string, other: string, ms: seq<Message>)
    requires other != userId
    ensures GetMessages(SetMessages(store, codec, userId, ms), codec, other) == GetMessages(store, codec, other)
  {
    if MessagesKey(other) == MessagesKey(userId) {
      NamespacedInjective(MessagesPrefix, other, MessagesPrefix, userId);
    }
  }
}

=== FILE: messages_route.dfy ===
/**
 * The `GET /messages` handler: returns the caller's history, seeding and
 * persisting a single assistant welcome message when it is empty. The user
 * identifier is an opaque input.
 */
module MessagesRoute {
  import opened Kv
  import opened Messages

  const WelcomeContent :=
    "Welcome to Geography Chat! To personalize your experience, I need to know your favorite country, continent, and destination. Let's start! What is your favorite country?"

  /** `GET /messages`. */
  function MessagesGet(store: Store, codec: Codec, userId: string): (r: Handled<seq<Message>>)
    ensures GetMessages(store, codec, userId) == [] ==>
              && r.reply == [Message(Assistant, WelcomeContent)]
              && r.store == SetMessages(store, codec, userId, r.reply)
    ensures GetMessages(store, codec, userId) != [] ==>
              r.reply == GetMessages(store, codec, userId) && r.store == store
    ensures |r.reply| > 0
  {
    var history := GetMessages(store, codec, userId);
    if |history| == 0 then
      var seeded := history + [Message(Assistant, WelcomeContent)];
      Handled(SetMessages(store, codec, userId, seeded), seeded)
    else
      Handled(store, history)
  }

  /** What the handler returns is what the store holds afterwards. */
  lemma ResponseIsPersisted(store: Store, codec: Codec, userId: string)
    requires Lawful(codec)
    ensures var r := MessagesGet(store, codec, userId);
            GetMessages(r.store, codec, userId) == r.reply
  {
    if GetMessages(store, codec, userId) == [] {
      GetAfterSet(store, codec, userId, [Message(Assistant, WelcomeContent)]);
    }
  }

  /** A second request returns the same history, so the welcome message is
      seeded once and never duplicated, and it writes nothing. */
  lemma SecondRequestIsStable(store: Store, codec: Codec, userId: string)
    requires Lawful(codec)
    ensures var first := MessagesGet(store, codec, userId);
            var second := MessagesGet(first.store, codec, userId);
            second.reply == first.reply && second.store == first.store
  {
    ResponseIsPersisted(store, codec, userId);
  }

  /** Seeding one user's history leaves every other user's history as it was. */
  lemma SeedingLeavesOtherUsers(store: Store, codec: Codec, userId: string, other: string)
    requires other != userId
    ensures GetMessages(MessagesGet(store, codec, userId).store, codec, other) == GetMessages(store, codec, other)
  {
    if GetMessages(store, codec, userId) == [] {
      SetLeavesOtherUsers(store, codec, userId, other, [Message(Assistant, WelcomeContent)]);
    }
  }
}

=== FILE: preferences.dfy ===
/**
 * Per-user preference storage: the structured extraction record produced by
 * the language model, reading the three preferences of a user, writing one,
 * and merging an extraction into the store.
 *
 * Each preference of user `u` lives under the key `<fieldName>:<u>`.
 */
module Preferences {
  import opened Wrappers
  import opened Kv
  import opened Schema

  /** The structured output of one extraction call. */
  datatype PreferenceExtraction = PreferenceExtraction(
    isUpdatingUserPreferences: bool,
    favoriteCountry: Option<string>,
    favoriteContinent: Option<string>,
    favoriteDestination: Option<string>,
    invalidField: Option<string>,
    invalidReason: Option<string>)
  {
    function Extracted(f: Field): Option<string> {
      match f
      case Country => favoriteCountry
      case Continent => favoriteContinent
      case Destination => favoriteDestination
    }
  }

  /** The three stored preferences of one user; `None` reads as `null`. */
  datatype UserPreferences = UserPreferences(
    favoriteCountry: Option<string>,
    favoriteContinent: Option<string>,
    favoriteDestination: Option<string>)
  {
    function Value(f: Field): Option<string> {
      match f
      case Country => favoriteCountry
      case Continent => favoriteContinent
      case Destination => favoriteDestination
    }
  }

  /** JavaScript truthiness of a nullable string: present and non-empty. */
  predicate Truthy(v: Option<string>) {
    v.Some? && v.value != ""
  }

  /** The store key of preference `f` of user `userId`. */
  function PreferenceKey(f: Field, userId: string): string {
    Namespaced(f.Name(), userId)
  }

  /** Preference keys of one user, or of different users, are all distinct. */
  lemma PreferenceKeysDistinct(f: Field, u: string, g: Field, v: string)
    requires f != g || u != v
    ensures PreferenceKey(f, u) != PreferenceKey(g, v)
  {
    if PreferenceKey(f, u) == PreferenceKey(g, v) {
      FieldNamesHaveNoColon(f);
      FieldNamesHaveNoColon(g);
      NamespacedInjective(f.Name(), u, g.Name(), v);
      FieldNamesDistinct(f, g);
    }
  }

  /** `getPreferences(userId)`. */
  function GetPreferences(store: Store, userId: string): (p: UserPreferences)
    ensures forall f :: p.Value(f) == Get(store, PreferenceKey(f, userId))
  {
    UserPreferences(
      Get(store, PreferenceKey(Country, userId)),
      Get(store, PreferenceKey(Continent, userId)),
      Get(store, PreferenceKey(Destination, userId)))
  }

  /** `setPreference(userId, key, value)`: stores `value` under `key:userId`
      and leaves every other key alone. */
  function SetPreference(store: Store, userId: string, key: string, value: string): (r: Store)
    ensures Get(r, Namespaced(key, userId)) == Some(value)
    ensures forall k :: k != Namespaced(key, userId) ==> Get(r, k) == Get(store, k)
    ensures r.Keys == store.Keys + {Namespaced(key, userId)}
  {
    Put(store, Namespaced(key, userId), value)
  }

  /** Writes `v` under `key` only when `v` is truthy. */
  function PutIfTruthy(store: Store, key: string, v: Option<string>): Store {
    if Truthy(v) then Put(store, key, v.value) else store
  }

  /** The value a preference has after merging an extraction: the extracted
      one when it is truthy, the previous one otherwise. */
  function Merged(previous: Option<string>, extracted: Option<string>): Option<string> {
    if Truthy(extracted) then extracted else previous
  }

  /** `updateUserPreferences(userId, extraction)`. */
  function UpdateUserPreferences(store: Store, userId: string, e: PreferenceExtraction): (r: Store)
    ensures forall f :: Get(r, PreferenceKey(f, userId))
                          == Merged(Get(store, PreferenceKey(f, userId)), e.Extracted(f))
    ensures forall k :: (forall f :: k != PreferenceKey(f, userId)) ==> Get(r, k) == Get(store, k)
  {
    var s1 := PutIfTruthy(store, PreferenceKey(Country, userId), e.favoriteCountry);
    var s2 := PutIfTruthy(s1, PreferenceKey(Continent, userId), e.favoriteContinent);
    var s3 := PutIfTruthy(s2, PreferenceKey(Destination, userId), e.favoriteDestination);
    PreferenceKeysDistinct(Country, userId, Continent, userId);
    PreferenceKeysDistinct(Country, userId, Destination, userId);
    PreferenceKeysDistinct(Continent, userId, Destination, userId);
    s3
  }

  /** Read-after-write: every truthy extracted field is read back, every
      other field keeps its previous value. */
  lemma ReadAfterUpdate(store: Store, userId: string, e: PreferenceExtraction)
    ensures var before := GetPreferences(store, userId);
            var after := GetPreferences(UpdateUserPreferences(store, userId, e), userId);
            forall f :: after.Value(f) == (if Truthy(e.Extracted(f)) then e.Extracted(f) else before.Value(f))
  {
  }

  /** An extraction with no truthy field leaves the store as it was. */
  lemma UpdateWithNothingTruthy(store: Store, userId: string, e: PreferenceExtraction)
    requires forall f :: !Truthy(e.Extracted(f))
    ensures UpdateUserPreferences(store, userId, e) == store
  {
  }

  /** Merging the same extraction twice gives the same store as once. */
  lemma UpdateIdempotent(store: Store, userId: string, e: PreferenceExtraction)
    ensures var once := UpdateUserPreferences(store, userId, e);
            UpdateUserPreferences(once, userId, e) == once
  {
    var once := UpdateUserPreferences(store, userId, e);
    var twice := UpdateUserPreferences(once, userId, e);
    forall k ensures Get(twice, k) == Get(once, k) {
      if k == PreferenceKey(Country, userId) {
      } else if k == PreferenceKey(Continent, userId) {
      } else if k == PreferenceKey(Destination, userId) {
      } else {
        assert forall f :: k != PreferenceKey(f, userId);
      }
    }
    StoresEqualByGet(twice, once);
  }

  /** Only the three field values matter: the update flag and the invalid
      field and reason are never consulted. */
  lemma UpdateIgnoresFlags(store: Store, userId: string, e1: PreferenceExtraction, e2: PreferenceExtraction)
    requires forall f :: e1.Extracted(f) == e2.Extracted(f)
    ensures UpdateUserPreferences(store, userId, e1) == UpdateUserPreferences(store, userId, e2)
  {
    assert e1.Extracted(Country) == e2.Extracted(Country);
    assert e1.Extracted(Continent) == e2.Extracted(Continent);
    assert e1.Extracted(Destination) == e2.Extracted(Destination);
  }
}

=== FILE: preferences_route.dfy ===
/**
 * The `GET /preferences` and `POST /preferences` handlers.
 *
 * Both read and write the three preferences under the bare keys
 * `favoriteCountry`, `favoriteContinent` and `favoriteDestination`, which are
 * shared by every user. POST validates the whole body before writing
 * anything; a thrown `Error` becomes a 422 carrying its message, anything
 * else thrown becomes a 500.
 */
module PreferencesRoute {
  import opened Wrappers
  import opened Text
  import opened Kv
  import opened Schema

  const Suggestions: seq<string> := [
    "What are the most famous landmarks in my favorite country?",
    "What is the climate like in my favorite destination?",
    "Tell me about the culture of my favorite continent.",
    "What are some interesting facts about my favorite country?",
    "How does the population of my favorite destination compare to others?"]

  const UnexpectedErrorMessage := "An unexpected error occurred"

  /** The JSON body of a successful response. */
  datatype PreferencesBody = PreferencesBody(
    favoriteCountry: Option<string>,
    favoriteContinent: Option<string>,
    favoriteDestination: Option<string>,
    suggestions: seq<string>)

  datatype Response =
    | Ok(body: PreferencesBody)
    | Failed(status: int, error: string)
    | Invalid(status: int, errors: seq<string>)

  /** What `req.json()` produced: a syntax error, or an object whose three
      properties are strings or absent. */
  datatype RequestBody =
    | Unparseable(syntaxError: string)
    | JsonObject(favoriteCountry: Option<string>, favoriteContinent: Option<string>, favoriteDestination: Option<string>)

  /** A thrown value: an `Error` instance with its message, or anything else. */
  datatype Thrown = ErrorInstance(message: string) | OtherValue

  /** The `catch` block. */
  function ErrorResponse(t: Thrown): (r: Response)
    ensures r.Failed?
    ensures r.status == 422 <==> t.ErrorInstance?
    ensures r.status == 500 <==> t.OtherValue?
    ensures t.ErrorInstance? ==> r.error == t.message
    ensures t.OtherValue? ==> r.error == UnexpectedErrorMessage
  {
    match t
    case ErrorInstance(message) => Failed(422, message)
    case OtherValue => Failed(500, UnexpectedErrorMessage)
  }

  /** The three shared preferences as stored, `null` when absent. */
  function StoredPreferences(store: Store): PreferencesBody {
    PreferencesBody(
      Get(store, Country.Name()), Get(store, Continent.Name()), Get(store, Destination.Name()),
      Suggestions)
  }

  /** `GET /preferences`. */
  function PreferencesGet(store: Store): (r: Response)
    ensures r.Ok?
    ensures r.body.favoriteCountry == Get(store, "favoriteCountry")
    ensures r.body.favoriteContinent == Get(store, "favoriteContinent")
    ensures r.body.favoriteDestination == Get(store, "favoriteDestination")
    ensures r.body.suggestions == Suggestions
  {
    Ok(StoredPreferences(store))
  }

  /** Stores a validated submission under the shared keys. */
  function StoreSubmission(store: Store, s: Submission): (r: Store)
    ensures Get(r, "favoriteCountry") == Some(s.country)
    ensures Get(r, "favoriteContinent") == Some(s.continent)
    ensures Get(r, "favoriteDestination") == Some(s.destination)
    ensures forall k :: k !in {"favoriteCountry", "favoriteContinent", "favoriteDestination"} ==>
              Get(r, k) == Get(store, k)
  {
    var s1 := Put(store, Country.Name(), s.country);
    var s2 := Put(s1, Continent.Name(), s.continent);
    Put(s2, Destination.Name(), s.destination)
  }

  /** `POST /preferences`. */
  function PreferencesPost(store: Store, req: RequestBody): (r: Handled<Response>)
    ensures !r.reply.Ok? ==> r.store == store
    ensures r.reply.Ok? || r.reply.Failed?
    ensures req.Unparseable? ==> r.reply == Failed(422, req.syntaxError)
    ensures req.JsonObject? ==>
              (r.reply.Ok? <==>
                 Validate(req.favoriteCountry, req.favoriteContinent, req.favoriteDestination).Success?)
    ensures r.reply.Ok? ==>
              && req.JsonObject?
              && Get(r.store, "favoriteCountry") == req.favoriteCountry
              && Get(r.store, "favoriteContinent") == req.favoriteContinent
              && Get(r.store, "favoriteDestination") == req.favoriteDestination
              && r.reply.body == PreferencesBody(
                   req.favoriteCountry, req.favoriteContinent, req.favoriteDestination, Suggestions)
    ensures r.reply.Failed? ==> r.reply.status == 422
  {
    match req
    case Unparseable(syntaxError) => Handled(store, ErrorResponse(ErrorInstance(syntaxError)))
    case JsonObject(country, continent, destination) =>
      match Validate(country, continent, destination)
      case Failure(errors) =>
        Handled(store, ErrorResponse(ErrorInstance(ValidationMessage(errors))))
      case Success(submission) =>
        var written := StoreSubmission(store, submission);
        Handled(written, Ok(StoredPreferences(written)))
  }

  /** POST changes nothing but the three shared keys. */
  lemma PostWritesOnlySharedKeys(store: Store, req: RequestBody, k: string)
    requires k !in {"favoriteCountry", "favoriteContinent", "favoriteDestination"}
    ensures Get(PreferencesPost(store, req).store, k) == Get(store, k)
  {
  }

  /** A submission rejected by validation reports its only problem
      verbatim, or the number of problems when there are several. */
  lemma RejectionMessage(store: Store, req: RequestBody)
    requires req.JsonObject?
    requires Validate(req.favoriteCountry, req.favoriteContinent, req.favoriteDestination).Failure?
    ensures var errors := Validate(req.favoriteCountry, req.favoriteContinent, req.favoriteDestination).error;
            PreferencesPost(store, req).reply == Failed(422, ValidationMessage(errors))
  {
  }

  /** A GET after a successful POST returns what was submitted. */
  lemma GetAfterPost(store: Store, req: RequestBody)
    requires PreferencesPost(store, req).reply.Ok?
    ensures PreferencesGet(PreferencesPost(store, req).store) == PreferencesPost(store, req).reply
  {
  }

  /** Storing a submission the store already holds changes nothing. */
  lemma StoreSubmissionAgain(store: Store, s: Submission)
    ensures StoreSubmission(StoreSubmission(store, s), s) == StoreSubmission(store, s)
  {
    var once := StoreSubmission(store, s);
    var twice := StoreSubmission(once, s);
    forall k ensures Get(twice, k) == Get(once, k) {
      if k !in {"favoriteCountry", "favoriteContinent", "favoriteDestination"} {
      }
    }
    StoresEqualByGet(twice, once);
  }

  /** Posting the same body twice leaves the same store and gives the same
      response as posting it once. */
  lemma PostIdempotent(store: Store, req: RequestBody)
    ensures var once := PreferencesPost(store, req);
            PreferencesPost(once.store, req) == once
  {
    if req.JsonObject? {
      var v := Validate(req.favoriteCountry, req.favoriteContinent, req.favoriteDestination);
      if v.Success? {
        StoreSubmissionAgain(store, v.value);
      }
    }
  }

  // ---------------------------------------------------------------------
  // Rejections with several problems

  /** A body whose continent is not one of the seven, sent together with a
      missing destination, is rejected with a bare count: the allowed
      continents are not named. */
  lemma CountHidesContinentList(store: Store, continent: string)
    requires !IsContinent(continent)
    ensures var req := JsonObject(Some("France"), Some(continent), None);
            var r := PreferencesPost(store, req).reply;
            r == Failed(422, "2 errors occurred") && !Contains(r.error, "Africa")
  {
    var req := JsonObject(Some("France"), Some(continent), None);
    var errors := [ContinentChoiceMessage, DestinationRule.requiredMessage];
    UnknownContinentWithoutDestination(continent);
    RejectionMessage(store, req);
    TwoErrorsMessage(errors);
    NoCapitalA();
  }

  lemma UnknownContinentWithoutDestination(continent: string)
    requires !IsContinent(continent)
    ensures Validate(Some("France"), Some(continent), None)
            == Failure([ContinentChoiceMessage, DestinationRule.requiredMessage])
  {
    assert TextErrors(CountryRule, Some("France")) == [] by {
      assert MatchesNamePattern("France");
    }
    assert ContinentErrors(Some(continent)) == [ContinentChoiceMessage] by {
      assert continent !in Continents;
    }
    assert TextErrors(DestinationRule, None) == [DestinationRule.requiredMessage];
    assert [] + [ContinentChoiceMessage] + [DestinationRule.requiredMessage]
           == [ContinentChoiceMessage, DestinationRule.requiredMessage];
  }

  lemma NoCapitalA()
    ensures !Contains("2 errors occurred", "Africa")
  {
    var m := "2 errors occurred";
    assert 'A' !in m;
    if Contains(m, "Africa") {
      ContainsFirstCharacter(m, "Africa");
    }
  }

  lemma TwoErrorsMessage(errors: seq<string>)
    requires |errors| == 2
    ensures ValidationMessage(errors) == "2 errors occurred"
  {
    TwoIsWrittenTwo();
    assert ValidationMessage(errors) == NatToString(2) + " errors occurred";
  }

  lemma TwoIsWrittenTwo()
    ensures NatToString(2) == "2"
  {
    assert DigitChar(2) == '2';
  }

  /** POST answering 422 with every validation message rather than their
      count. */
  function PreferencesPostListingErrors(store: Store, req: RequestBody): (r: Handled<Response>)
    ensures !r.reply.Ok? ==> r.store == store
    ensures req.JsonObject? ==>
              (r.reply.Ok? <==>
                 Validate(req.favoriteCountry, req.favoriteContinent, req.favoriteDestination).Success?)
    ensures req.JsonObject? && req.favoriteContinent.Some? && !IsContinent(req.favoriteContinent.value) ==>
              r.reply.Invalid? && r.reply.status == 422
              && ContinentChoiceMessage in r.reply.errors
    ensures r.reply.Ok? ==> r == PreferencesPost(store, req)
  {
    match req
    case Unparseable(syntaxError) => Handled(store, ErrorResponse(ErrorInstance(syntaxError)))
    case JsonObject(country, continent, destination) =>
      match Validate(country, continent, destination)
      case Failure(errors) =>
        assert continent.Some? && !IsContinent(continent.value) ==> ContinentChoiceMessage in errors by {
          if continent.Some? && !IsContinent(continent.value) {
            assert ContinentChoiceMessage in multiset(errors);
          }
        }
        Handled(store, Invalid(422, errors))
      case Success(submission) =>
        var written := StoreSubmission(store, submission);
        Handled(written, Ok(StoredPreferences(written)))
  }

  /** With every message listed, a rejected continent always comes with the
      names of the seven allowed continents. */
  lemma ListedErrorsNameContinents(store: Store, req: RequestBody, i: nat)
    requires req.JsonObject? && req.favoriteContinent.Some? && !IsContinent(req.favoriteContinent.value)
    requires i < |Continents|
    ensures var r := PreferencesPostListingErrors(store, req).reply;
            exists e :: e in r.errors && Contains(e, Continents[i])
  {
    ContinentChoiceMessageNamesEach(i);
  }
}

=== FILE: prompts.dfy ===
/**
 * System-prompt selection: while any of the three preferences is missing
 * (empty), a fixed onboarding prompt that only interpolates the list of
 * continents; once all are present, an expert prompt that embeds the three
 * values and a `role: content` transcript of the conversation.
 *
 * The continent list is a parameter: its definition is not part of this
 * model.
 */
module Prompts {
  import opened Text
  import opened Messages

  const CountryItem := "favorite country"
  const ContinentItem := "favorite continent"
  const DestinationItem := "favorite destination"

  /** Position of a missing-list item in the fixed asking order. */
  function ItemRank(item: string): nat {
    if item == CountryItem then 0 else if item == ContinentItem then 1 else 2
  }

  /** The missing list: the names of the empty preferences, in the order
      country, continent, destination. */
  function MissingPreferences(country: string, continent: string, destination: string)
    : (missing: seq<string>)
    ensures CountryItem in missing <==> country == ""
    ensures ContinentItem in missing <==> continent == ""
    ensures DestinationItem in missing <==> destination == ""
    ensures |missing| == 0 <==> country != "" && continent != "" && destination != ""
    ensures forall i :: 0 <= i < |missing| ==> missing[i] in {CountryItem, ContinentItem, DestinationItem}
    ensures forall i, j :: 0 <= i < j < |missing| ==> ItemRank(missing[i]) < ItemRank(missing[j])
  {
    (if country == "" then [CountryItem] else [])
    + (if continent == "" then [ContinentItem] else [])
    + (if destination == "" then [DestinationItem] else [])
  }

  // ---------------------------------------------------------------------
  // The onboarding prompt

  const OnboardingOpening := "You are a friendly"

  const OnboardingLead := OnboardingOpening + OnboardingLeadRest

  const OnboardingLeadRest :=
    " onboarding assistant for a geography chatbot. Your job is to collect the user's preferences in a conversational way. \n"
    + "\n"
    + "The preferences you need are: favorite country, favorite continent (must be one of: "

  const OnboardingTail :=
    "), and favorite destination.\n"
    + "\n"
    + "Guidelines:\n"
    + "- Only ask about one missing preference at a time, in this order: country, continent, destination.\n"
    + "- If the user provides a value for a missing preference, confirm and clearly state that you are updating their preferences.\n"
    + "- If the user provides an invalid continent, ask them to choose from the valid list.\n"
    + "- Do not answer any other questions until all preferences are set. Politely explain that you need their preferences first.\n"
    + "- After all preferences are set, confirm them and let the user know they can now ask geography questions.\n"
    + "- Use a friendly, conversational tone."

  function OnboardingPrompt(continents: seq<string>): string {
    OnboardingLead + Join(continents, ", ") + OnboardingTail
  }

  // ---------------------------------------------------------------------
  // The expert prompt

  const ExpertOpening := "You are a knowledgeable"

  const ExpertLead := ExpertOpening + ExpertLeadRest

  const ExpertLeadRest :=
    " geography expert chatbot. Your goal is to provide accurate, engaging, and informative responses about world geography.\n"
    + "\n"
    + "User Preferences:\n"

  const ExpertGuidelines :=
    "\n"
    + "Guidelines:\n"
    + "1. Use the user's preferences to personalize responses when relevant\n"
    + "2. Provide accurate geographical information\n"
    + "3. Include interesting facts and cultural context\n"
    + "4. Keep responses concise but informative\n"
    + "5. If asked about the user's favorite places, incorporate their preferences naturally\n"
    + "6. For questions outside geography, politely redirect to geography topics\n"
    + "7. Use a friendly and engaging tone\n"
    + "8. Include relevant statistics when appropriate\n"
    + "9. Mention cultural aspects of geographical locations\n"
    + "10. Provide context about climate, population, and notable features\n"
    + "\n"
    + "Example conversation:\n"

  function CountryLine(country: string): string {
    "- Favorite Country: " + country + "\n"
  }

  function ContinentLine(continent: string): string {
    "- Favorite Continent: " + continent + "\n"
  }

  function DestinationLine(destination: string): string {
    "- Favorite Destination: " + destination + "\n"
  }

  /** `${m.role}: ${m.content}` */
  function TranscriptLine(m: Message): string {
    m.role.Name() + ": " + m.content
  }

  function TranscriptLines(ms: seq<Message>): (lines: seq<string>)
    ensures |lines| == |ms|
    ensures forall i :: 0 <= i < |ms| ==> lines[i] == TranscriptLine(ms[i])
  {
    seq(|ms|, i requires 0 <= i < |ms| => TranscriptLine(ms[i]))
  }

  /** One `role: content` line per message, joined by newlines. */
  function Transcript(ms: seq<Message>): string {
    Join(TranscriptLines(ms), "\n")
  }

  function ExpertPrompt(country: string, continent: string, destination: string, ms: seq<Message>): string {
    ExpertLead + (CountryLine(country) + (ContinentLine(continent) + (DestinationLine(destination)
    + (ExpertGuidelines + (Transcript(ms) + "\n")))))
  }

  // ---------------------------------------------------------------------
  // Selection

  /** `getSystemPrompt({favoriteCountry, favoriteContinent, favoriteDestination, messages})`. */
  function GetSystemPrompt(
    country: string, continent: string, destination: string,
    ms: seq<Message>, continents: seq<string>): (prompt: string)
    ensures prompt == OnboardingPrompt(continents) <==> (country == "" || continent == "" || destination == "")
    ensures country != "" && continent != "" && destination != "" ==>
              prompt == ExpertPrompt(country, continent, destination, ms)
  {
    var missing := MissingPreferences(country, continent, destination);
    if |missing| > 0 then OnboardingPrompt(continents)
    else
      PromptsDiffer(country, continent, destination, ms, continents);
      ExpertPrompt(country, continent, destination, ms)
  }

  /** The two prompts differ in their opening words. */
  lemma PromptsDiffer(
    country: string, continent: string, destination: string,
    ms: seq<Message>, continents: seq<string>)
    ensures ExpertPrompt(country, continent, destination, ms) != OnboardingPrompt(continents)
  {
    var expert := ExpertPrompt(country, continent, destination, ms);
    var onboarding := OnboardingPrompt(continents);
    var expertRest := CountryLine(country) + (ContinentLine(continent) + (DestinationLine(destination)
                      + (ExpertGuidelines + (Transcript(ms) + "\n"))));
    PrefixExtends(ExpertOpening, ExpertOpening, ExpertLeadRest);
    PrefixExtends(ExpertOpening, ExpertLead, expertRest);
    PrefixExtends(OnboardingOpening, OnboardingOpening, OnboardingLeadRest);
    PrefixExtends(OnboardingOpening, OnboardingLead, Join(continents, ", "));
    PrefixExtends(OnboardingOpening, OnboardingLead + Join(continents, ", "), OnboardingTail);
    DifferentOpenings(ExpertOpening, expert, OnboardingOpening, onboarding, 10);
  }

  /** The onboarding prompt depends neither on which preferences are
      missing nor on the conversation. */
  lemma OnboardingIgnoresValuesAndMessages(
    c1: string, ct1: string, d1: string, ms1: seq<Message>,
    c2: string, ct2: string, d2: string, ms2: seq<Message>,
    continents: seq<string>)
    requires c1 == "" || ct1 == "" || d1 == ""
    requires c2 == "" || ct2 == "" || d2 == ""
    ensures GetSystemPrompt(c1, ct1, d1, ms1, continents) == GetSystemPrompt(c2, ct2, d2, ms2, continents)
  {
  }

  /** The onboarding prompt lists the continents joined by `", "`, and so
      names each of them. */
  lemma OnboardingListsContinents(continents: seq<string>, i: nat)
    requires i < |continents|
    ensures Contains(OnboardingPrompt(continents), Join(continents, ", "))
    ensures Contains(OnboardingPrompt(continents), continents[i])
  {
    var joined := Join(continents, ", ");
    ContainsConcat(OnboardingLead, joined, OnboardingTail);
    JoinContainsEach(continents, ", ", i);
    ContainsTransitive(OnboardingPrompt(continents), joined, continents[i]);
  }

  /** Each preference value appears verbatim on its labelled line. */
  lemma ExpertPromptStatesPreferences(country: string, continent: string, destination: string, ms: seq<Message>)
    ensures var p := ExpertPrompt(country, continent, destination, ms);
            && Contains(p, CountryLine(country))
            && Contains(p, ContinentLine(continent))
            && Contains(p, DestinationLine(destination))
  {
    var a := CountryLine(country);
    var b := ContinentLine(continent);
    var d := DestinationLine(destination);
    var tail := ExpertGuidelines + (Transcript(ms) + "\n");
    ContainsPrefix(a, b + (d + tail));
    ContainsInSuffix(ExpertLead, a + (b + (d + tail)), a);
    ContainsPrefix(b, d + tail);
    ContainsInSuffix(a, b + (d + tail), b);
    ContainsInSuffix(ExpertLead, a + (b + (d + tail)), b);
    ContainsPrefix(d, tail);
    ContainsInSuffix(b, d + tail, d);
    ContainsInSuffix(a, b + (d + tail), d);
    ContainsInSuffix(ExpertLead, a + (b + (d + tail)), d);
  }

  /** The expert prompt ends with the transcript and a final newline. */
  lemma ExpertPromptEndsWithTranscript(country: string, continent: string, destination: string, ms: seq<Message>)
    ensures EndsWith(ExpertPrompt(country, continent, destination, ms), Transcript(ms) + "\n")
  {
    var t := Transcript(ms) + "\n";
    var r1 := ExpertGuidelines + t;
    var r2 := DestinationLine(destination) + r1;
    var r3 := ContinentLine(continent) + r2;
    var r4 := CountryLine(country) + r3;
    assert EndsWith(t, t);
    EndsWithExtends(ExpertGuidelines, t, t);
    EndsWithExtends(DestinationLine(destination), r1, t);
    EndsWithExtends(ContinentLine(continent), r2, t);
    EndsWithExtends(CountryLine(country), r3, t);
    EndsWithExtends(ExpertLead, r4, t);
  }

  /** When no message content spans several lines, the transcript splits
      back into exactly one `role: content` line per message, in order. */
  lemma TranscriptSplitsIntoLines(ms: seq<Message>)
    requires |ms| > 0
    requires forall i :: 0 <= i < |ms| ==> '\n' !in ms[i].content
    ensures Split(Transcript(ms), '\n') == TranscriptLines(ms)
    ensures forall i :: 0 <= i < |ms| ==> Split(Transcript(ms), '\n')[i] == ms[i].role.Name() + ": " + ms[i].content
  {
    var lines := TranscriptLines(ms);
    forall i | 0 <= i < |lines| ensures '\n' !in lines[i] {
      var m := ms[i];
      assert '\n' !in m.role.Name();
      assert lines[i] == m.role.Name() + ": " + m.content;
    }
    SplitJoin(lines, '\n');
  }
}

=== FILE: rate_limit.dfy ===
/**
 * Rate-limit plumbing: choosing the client address from the request headers,
 * and shaping the limiter's verdict into either a pass-through record or a
 * ready-made 429 response.
 *
 * The sliding-window limiter is not modelled: it is a function from the
 * client address to its verdict. Header names are taken as already
 * lower-cased; an absent header reads as `null`.
 */
module RateLimit {
  import opened Wrappers
  import opened Text

  type Headers = map<string, string>

  /** Headers that may carry the client address, most trusted first. */
  const ForwardedFor := "x-forwarded-for"

  const IpHeaders: seq<string> := [
    ForwardedFor, "x-real-ip", "cf-connecting-ip", "true-client-ip",
    "x-forwarded", "forwarded-for", "forwarded"]

  const UnknownIp := "unknown"

  /** `headersList.get(name)` is truthy. */
  predicate HasValue(h: Headers, name: string) {
    name in h && h[name] != ""
  }

  /** The first address of an `x-forwarded-for` list: the text before its
      first comma, trimmed. */
  function FirstForwardedAddress(value: string): string {
    Trim(BeforeFirst(value, ','))
  }

  /** `names[k]` is the first of `names` with a non-empty value. */
  predicate FirstWithValue(h: Headers, names: seq<string>, k: int) {
    && 0 <= k < |names|
    && HasValue(h, names[k])
    && forall j :: 0 <= j < k ==> !HasValue(h, names[j])
  }

  /** The address a header value yields: the first forwarded address for
      `x-forwarded-for`, the raw value for any other header. */
  function AddressFrom(name: string, value: string): string {
    if name == ForwardedFor then FirstForwardedAddress(value) else value
  }

  /** The loop of `getClientIp`, over any list of header names. */
  method ScanHeaders(h: Headers, names: seq<string>) returns (ip: string)
    ensures (forall j :: 0 <= j < |names| ==> !HasValue(h, names[j])) ==> ip == UnknownIp
    ensures forall k :: FirstWithValue(h, names, k) ==> ip == AddressFrom(names[k], h[names[k]])
  {
    var i := 0;
    while i < |names|
      invariant 0 <= i <= |names|
      invariant forall j :: 0 <= j < i ==> !HasValue(h, names[j])
    {
      var header := names[i];
      var value := if header in h then h[header] else "";
      if value != "" {
        assert FirstWithValue(h, names, i);
        assert forall k :: FirstWithValue(h, names, k) ==> k == i;
        if header == ForwardedFor {
          return FirstForwardedAddress(value);
        }
        return value;
      }
      i := i + 1;
    }
    return UnknownIp;
  }

  lemma OnlyFirstHeaderIsForwardedFor(i: nat)
    requires 0 < i < |IpHeaders|
    ensures IpHeaders[i] != ForwardedFor
  {
  }

  /** `getClientIp(headersList)`: the first listed header with a non-empty
      value decides; for `x-forwarded-for` its first address, for the
      others the raw value; `"unknown"` when none has a value. */
  method ClientIp(h: Headers) returns (ip: string)
    ensures (forall j :: 0 <= j < |IpHeaders| ==> !HasValue(h, IpHeaders[j])) ==> ip == UnknownIp
    ensures forall k :: FirstWithValue(h, IpHeaders, k) ==>
              ip == (if k == 0 then FirstForwardedAddress(h[IpHeaders[0]]) else h[IpHeaders[k]])
  {
    ip := ScanHeaders(h, IpHeaders);
    forall k | 0 < k < |IpHeaders| ensures IpHeaders[k] != ForwardedFor {
      OnlyFirstHeaderIsForwardedFor(k);
    }
  }

  /** The address taken from `x-forwarded-for` never contains a comma and
      has no surrounding whitespace. */
  lemma ForwardedAddressShape(value: string)
    ensures ',' !in FirstForwardedAddress(value)
    ensures var a := FirstForwardedAddress(value);
            a == [] || (!IsJsWhitespace(a[0]) && !IsJsWhitespace(a[|a| - 1]))
  {
    var field := BeforeFirst(value, ',');
    var a := Trim(field);
    forall c | c in a ensures c in field {
      TrimKeepsCharacters(field, c);
    }
  }

  // ---------------------------------------------------------------------
  // Shaping the verdict

  /** What the limiter reports for one address. */
  datatype Verdict = Verdict(success: bool, limit: int, remaining: int, reset: int)

  datatype Response = Response(status: int, body: string, headers: map<string, string>)

  /** `checkRateLimit()`'s result: on denial a response and nothing else, on
      success the remaining budget and reset time and no response. */
  datatype RateLimitResult = RateLimitResult(
    success: bool, response: Option<Response>, remaining: Option<int>, reset: Option<int>)

  /** `JSON.stringify({ error: "Rate limit exceeded", remaining, reset })`. */
  function DenialBody(remaining: int, reset: int): string {
    "{\"error\":\"Rate limit exceeded\",\"remaining\":" + IntToString(remaining)
    + ",\"reset\":" + IntToString(reset) + "}"
  }

  /** The record `checkRateLimit()` builds from a verdict. */
  function ShapeVerdict(v: Verdict): (r: RateLimitResult)
    ensures r.success == v.success
    ensures v.success ==> r.response == None && r.remaining == Some(v.remaining) && r.reset == Some(v.reset)
    ensures !v.success ==>
              && r.remaining == None && r.reset == None
              && r.response.Some?
              && r.response.value.status == 429
              && r.response.value.body == DenialBody(v.remaining, v.reset)
              && r.response.value.headers.Keys ==
                   {"Content-Type", "X-RateLimit-Limit", "X-RateLimit-Remaining", "X-RateLimit-Reset"}
              && r.response.value.headers["Content-Type"] == "application/json"
              && ParseInt(r.response.value.headers["X-RateLimit-Limit"]) == Some(v.limit)
              && ParseInt(r.response.value.headers["X-RateLimit-Remaining"]) == Some(v.remaining)
              && ParseInt(r.response.value.headers["X-RateLimit-Reset"]) == Some(v.reset)
              && CanonicalInt(r.response.value.headers["X-RateLimit-Limit"])
              && CanonicalInt(r.response.value.headers["X-RateLimit-Remaining"])
              && CanonicalInt(r.response.value.headers["X-RateLimit-Reset"])
  {
    if !v.success then
      ParseIntToString(v.limit);
      ParseIntToString(v.remaining);
      ParseIntToString(v.reset);
      var headers := map[
        "Content-Type" := "application/json",
        "X-RateLimit-Limit" := IntToString(v.limit),
        "X-RateLimit-Remaining" := IntToString(v.remaining),
        "X-RateLimit-Reset" := IntToString(v.reset)];
      RateLimitResult(false, Some(Response(429, DenialBody(v.remaining, v.reset), headers)), None, None)
    else
      RateLimitResult(true, None, Some(v.remaining), Some(v.reset))
  }

  /** `checkRateLimit()`: asks the limiter about the client address and
      shapes its verdict. */
  method CheckRateLimit(h: Headers, limiter: string -> Verdict) returns (ip: string, r: RateLimitResult)
    ensures (forall j :: 0 <= j < |IpHeaders| ==> !HasValue(h, IpHeaders[j])) ==> ip == UnknownIp
    ensures forall k :: FirstWithValue(h, IpHeaders, k) ==>
              ip == (if k == 0 then FirstForwardedAddress(h[IpHeaders[0]]) else h[IpHeaders[k]])
    ensures r == ShapeVerdict(limiter(ip))
    ensures r.success == limiter(ip).success
  {
    ip := ClientIp(h);
    r := ShapeVerdict(limiter(ip));
  }
}

=== FILE: schema.dfy ===
/**
 * The preference validation schema: three independent per-field rules
 * (required, length bounds and a letters/whitespace/hyphen alphabet for the
 * country and the destination; a closed list of seven names for the
 * continent), the error messages each rule reports, and the message of the
 * aggregated validation error.
 *
 * With `abortEarly: false` every field is checked. Within a field, yup's
 * internal tests run first: the presence test of `required()` and the
 * `oneOf` whitelist. When one of them fails, the field's other tests are
 * skipped. So a missing value (`undefined` or `null`) reports only the
 * required message, and a present continent outside the list, `""`
 * included, only the choice message. A present country or destination
 * reports every rule it breaks, in declaration order.
 */
module Schema {
  import opened Wrappers
  import opened Text

  /** The three preference fields, with their property names. */
  datatype Field = Country | Continent | Destination {
    function Name(): string {
      match this
      case Country => "favoriteCountry"
      case Continent => "favoriteContinent"
      case Destination => "favoriteDestination"
    }
  }

  /** No field name contains a colon, so they can prefix namespaced keys. */
  lemma FieldNamesHaveNoColon(f: Field)
    ensures ':' !in f.Name()
  {
  }

  lemma FieldNamesDistinct(f: Field, g: Field)
    requires f != g
    ensures f.Name() != g.Name()
  {
  }

  // ---------------------------------------------------------------------
  // Free-text fields: country and destination

  /** `[a-zA-Z\s-]` */
  predicate InNameAlphabet(c: char) {
    ('a' <= c <= 'z') || ('A' <= c <= 'Z') || IsJsWhitespace(c) || c == '-'
  }

  /** `/^[a-zA-Z\s-]+$/`: non-empty and drawn from the name alphabet. */
  predicate MatchesNamePattern(s: string) {
    |s| > 0 && forall i :: 0 <= i < |s| ==> InNameAlphabet(s[i])
  }

  /** A `string().required().min().max().matches()` rule. */
  datatype TextRule = TextRule(
    minLength: nat, maxLength: nat,
    requiredMessage: string, minMessage: string, maxMessage: string, matchesMessage: string)

  const CountryRule := TextRule(
    2, 50,
    "Favorite country is required",
    "Country name must be at least 2 characters",
    "Country name must be less than 50 characters",
    "Country name can only contain letters, spaces, and hyphens")

  const DestinationRule := TextRule(
    2, 100,
    "Favorite destination is required",
    "Destination name must be at least 2 characters",
    "Destination name must be less than 100 characters",
    "Destination name can only contain letters, spaces, and hyphens")

  /** When a value satisfies a text rule (stated without reference to the
      error messages). */
  predicate SatisfiesTextRule(rule: TextRule, v: Option<string>) {
    && v.Some?
    && v.value != ""
    && rule.minLength <= |v.value| <= rule.maxLength
    && MatchesNamePattern(v.value)
  }

  function RuleMessages(rule: TextRule): set<string> {
    {rule.requiredMessage, rule.minMessage, rule.maxMessage, rule.matchesMessage}
  }

  /** The four messages of a rule are pairwise different, so a reported
      message identifies the test that failed. */
  predicate MessagesDistinct(rule: TextRule) {
    && rule.requiredMessage != rule.minMessage
    && rule.requiredMessage != rule.maxMessage
    && rule.requiredMessage != rule.matchesMessage
    && rule.minMessage != rule.maxMessage
    && rule.minMessage != rule.matchesMessage
    && rule.maxMessage != rule.matchesMessage
  }

  /** The messages a text rule reports for `v`, in declaration order. A
      missing value fails yup's internal presence test and reports the
      required message alone; a present string runs every test and reports
      each one it fails, once. */
  function TextErrors(rule: TextRule, v: Option<string>): (errors: seq<string>)
    requires MessagesDistinct(rule)
    ensures errors == [] <==> SatisfiesTextRule(rule, v)
    ensures v.None? ==> errors == [rule.requiredMessage]
    ensures v.Some? ==> (rule.requiredMessage in errors <==> v.value == "")
    ensures v.Some? ==> (rule.minMessage in errors <==> |v.value| < rule.minLength)
    ensures v.Some? ==> (rule.maxMessage in errors <==> |v.value| > rule.maxLength)
    ensures v.Some? ==> (rule.matchesMessage in errors <==> !MatchesNamePattern(v.value))
    ensures v == Some("") ==> |errors| > 0 && errors[0] == rule.requiredMessage
    ensures forall i :: 0 <= i < |errors| ==> errors[i] in RuleMessages(rule)
    ensures forall i, j :: 0 <= i < j < |errors| ==> errors[i] != errors[j]
  {
    match v
    case None => [rule.requiredMessage]
    case Some(s) =>
      (if s == "" then [rule.requiredMessage] else [])
      + (if |s| < rule.minLength then [rule.minMessage] else [])
      + (if |s| > rule.maxLength then [rule.maxMessage] else [])
      + (if !MatchesNamePattern(s) then [rule.matchesMessage] else [])
  }

  /** The country bound is inclusive: a well-formed 50-character name is
      accepted although the message says "less than 50", and one more
      character is reported by the maximum-length rule alone. */
  lemma CountryLengthBoundary(name: string)
    requires MatchesNamePattern(name)
    ensures |name| == 50 ==> TextErrors(CountryRule, Some(name)) == []
    ensures |name| == 51 ==> TextErrors(CountryRule, Some(name)) == [CountryRule.maxMessage]
  {
  }

  // ---------------------------------------------------------------------
  // The continent field

  const Continents: seq<string> :=
    ["Africa", "Antarctica", "Asia", "Europe", "North America", "South America", "Oceania"]

  const ContinentRequiredMessage := "Favorite continent is required"
  const ContinentChoiceMessage :=
    "Please select a valid continent: " +
    ("Africa" + ", " + ("Antarctica" + ", " + ("Asia" + ", " + ("Europe" + ", " +
    ("North America" + ", " + ("South America" + ", " + "Oceania"))))))

  /** The continent is one of exactly seven names, compared case-sensitively. */
  predicate IsContinent(s: string) {
    || s == "Africa" || s == "Antarctica" || s == "Asia" || s == "Europe"
    || s == "North America" || s == "South America" || s == "Oceania"
  }

  /** The messages the continent rule reports for `v`. */
  function ContinentErrors(v: Option<string>): (errors: seq<string>)
    ensures errors == [] <==> v.Some? && IsContinent(v.value)
    ensures v.None? ==> errors == [ContinentRequiredMessage]
    ensures v.Some? && !IsContinent(v.value) ==> errors == [ContinentChoiceMessage]
  {
    match v
    case None => [ContinentRequiredMessage]
    case Some(s) => if s in Continents then [] else [ContinentChoiceMessage]
  }

  /** The choice message is the fixed lead-in followed by the continent
      names joined with `", "`. */
  lemma ContinentChoiceMessageIsJoin()
    ensures ContinentChoiceMessage == "Please select a valid continent: " + Join(Continents, ", ")
  {
    var sep := ", ";
    assert Join(["Oceania"], sep) == "Oceania";
    JoinStep("South America", ["Oceania"], sep);
    JoinStep("North America", ["South America", "Oceania"], sep);
    JoinStep("Europe", ["North America", "South America", "Oceania"], sep);
    JoinStep("Asia", ["Europe", "North America", "South America", "Oceania"], sep);
    JoinStep("Antarctica", ["Asia", "Europe", "North America", "South America", "Oceania"], sep);
    JoinStep("Africa", ["Antarctica", "Asia", "Europe", "North America", "South America", "Oceania"], sep);
    assert Continents == ["Africa"] + ["Antarctica", "Asia", "Europe", "North America", "South America", "Oceania"];
  }

  /** The choice message lists every continent by name. */
  lemma ContinentChoiceMessageNamesEach(i: nat)
    requires i < |Continents|
    ensures Contains(ContinentChoiceMessage, Continents[i])
  {
    var prefix := "Please select a valid continent: ";
    var joined := Join(Continents, ", ");
    ContinentChoiceMessageIsJoin();
    JoinContainsEach(Continents, ", ", i);
    ContainsConcat(prefix, joined, "");
    assert prefix + joined + "" == ContinentChoiceMessage;
    ContainsTransitive(ContinentChoiceMessage, joined, Continents[i]);
  }

  // ---------------------------------------------------------------------
  // The whole object

  /** A submission whose three fields passed validation. */
  datatype Submission = Submission(country: string, continent: string, destination: string)

  /** `preferencesSchema.validate(data, { abortEarly: false })`: either the
      validated values or every message reported. */
  function Validate(country: Option<string>, continent: Option<string>, destination: Option<string>)
    : (r: Result<Submission, seq<string>>)
    ensures r.Success? <==>
              && SatisfiesTextRule(CountryRule, country)
              && continent.Some? && IsContinent(continent.value)
              && SatisfiesTextRule(DestinationRule, destination)
    ensures r.Success? ==>
              r.value == Submission(country.value, continent.value, destination.value)
    ensures r.Failure? ==> |r.error| > 0
    ensures r.Failure? ==>
              multiset(r.error) ==
                multiset(TextErrors(CountryRule, country)) + multiset(ContinentErrors(continent))
                + multiset(TextErrors(DestinationRule, destination))
  {
    var errors := TextErrors(CountryRule, country) + ContinentErrors(continent)
                  + TextErrors(DestinationRule, destination);
    if errors == [] then Success(Submission(country.value, continent.value, destination.value))
    else Failure(errors)
  }

  /** The `message` of the thrown validation error: the only message when
      there is one, otherwise a count. */
  function ValidationMessage(errors: seq<string>): (m: string)
    requires |errors| > 0
    ensures |errors| == 1 ==> m == errors[0]
    ensures |errors| > 1 ==> EndsWith(m, " errors occurred")
                             && CanonicalNat(m[..|m| - |" errors occurred"|])
                             && ParseNat(m[..|m| - |" errors occurred"|]) == Some(|errors|)
  {
    if |errors| == 1 then errors[0]
    else
      var m := NatToString(|errors|) + " errors occurred";
      assert m[..|m| - |" errors occurred"|] == NatToString(|errors|);
      ParseNatToString(|errors|);
      m
  }
}

=== FILE: text.dfy ===
/**
 * The JavaScript string primitives the application relies on: the `\s`
 * character class (which is also the set `String.prototype.trim` strips),
 * `split(",")[0]`, `trim()`, `Array.prototype.join`, and the decimal
 * rendering of integers by `Number.prototype.toString`.
 *
 * Strings are sequences of `char`; lengths count characters.
 */
module Text {
  import opened Wrappers

  /** ECMAScript WhiteSpace and LineTerminator code points. */
  predicate IsJsWhitespace(c: char) {
    || c == '\t' || c == '\n' || c == '\U{000B}' || c == '\U{000C}' || c == '\r'
    || c == ' ' || c == '\U{00A0}' || c == '\U{1680}'
    || ('\U{2000}' <= c <= '\U{200A}')
    || c == '\U{2028}' || c == '\U{2029}' || c == '\U{202F}' || c == '\U{205F}'
    || c == '\U{3000}' || c == '\U{FEFF}'
  }

  /** `t` occurs in `s` as a contiguous run of characters. */
  ghost predicate Contains(s: string, t: string) {
    exists i :: 0 <= i <= |s| && t <= s[i..]
  }

  /** `t` is a final segment of `s`. */
  predicate EndsWith(s: string, t: string) {
    |t| <= |s| && s[|s| - |t|..] == t
  }

  lemma ContainsConcat(a: string, t: string, b: string)
    ensures Contains(a + t + b, t)
  {
    var s := a + t + b;
    assert s[|a|..] == t + b;
  }

  lemma ContainsPrefix(t: string, b: string)
    ensures Contains(t + b, t)
  {
    assert (t + b)[0..] == t + b;
  }

  lemma ContainsInSuffix(a: string, t: string, u: string)
    requires Contains(t, u)
    ensures Contains(a + t, u)
  {
    var i :| 0 <= i <= |t| && u <= t[i..];
    assert (a + t)[|a| + i..] == t[i..];
  }

  lemma PrefixExtends(a: string, s: string, b: string)
    requires a <= s
    ensures a <= s + b
  {
    assert (s + b)[..|s|] == s;
  }

  lemma EndsWithExtends(a: string, s: string, t: string)
    requires EndsWith(s, t)
    ensures EndsWith(a + s, t)
  {
    assert (a + s)[|a|..] == s;
    assert (a + s)[|a + s| - |t|..] == s[|s| - |t|..];
  }

  /** Strings that begin differently are different. */
  lemma DifferentOpenings(a: string, s: string, b: string, t: string, i: nat)
    requires a <= s && b <= t
    requires i < |a| && i < |b| && a[i] != b[i]
    ensures s != t
  {
  }

  /** A string containing `t` contains its first character. */
  lemma ContainsFirstCharacter(s: string, t: string)
    requires |t| > 0 && Contains(s, t)
    ensures t[0] in s
  {
    var i :| 0 <= i <= |s| && t <= s[i..];
    assert s[i] == t[0];
  }

  lemma ContainsTransitive(s: string, t: string, u: string)
    requires Contains(s, t) && Contains(t, u)
    ensures Contains(s, u)
  {
    var i :| 0 <= i <= |s| && t <= s[i..];
    var j :| 0 <= j <= |t| && u <= t[j..];
    assert s[i..][j..] == s[i + j..];
    assert u <= s[i + j..];
  }

  // ---------------------------------------------------------------------
  // trim()

  /** Drops the leading whitespace of `s`. */
  function TrimStart(s: string): (r: string)
    ensures EndsWith(s, r)
    ensures r == [] || !IsJsWhitespace(r[0])
    ensures forall k :: 0 <= k < |s| - |r| ==> IsJsWhitespace(s[k])
  {
    if |s| > 0 && IsJsWhitespace(s[0]) then TrimStart(s[1..]) else s
  }

  /** Drops the trailing whitespace of `s`. */
  function TrimEnd(s: string): (r: string)
    ensures r <= s
    ensures r == [] || !IsJsWhitespace(r[|r| - 1])
    ensures forall k :: |r| <= k < |s| ==> IsJsWhitespace(s[k])
  {
    if |s| > 0 && IsJsWhitespace(s[|s| - 1]) then TrimEnd(s[..|s| - 1]) else s
  }

  /** `String.prototype.trim`: the segment of `s` left after removing
      whitespace from both ends. */
  function Trim(s: string): (r: string)
    ensures r == [] || (!IsJsWhitespace(r[0]) && !IsJsWhitespace(r[|r| - 1]))
    ensures exists i :: 0 <= i <= |s| - |r| && r <= s[i..]
                        && (forall k :: 0 <= k < i ==> IsJsWhitespace(s[k]))
                        && (forall k :: i + |r| <= k < |s| ==> IsJsWhitespace(s[k]))
  {
    TrimSegment(s);
    TrimEnd(TrimStart(s))
  }

  /** The leading whitespace `TrimStart` drops ends where the segment kept by
      `TrimEnd` begins. */
  lemma TrimSegment(s: string)
    ensures var r := TrimEnd(TrimStart(s));
            exists i :: 0 <= i <= |s| - |r| && r <= s[i..]
                        && (forall k :: 0 <= k < i ==> IsJsWhitespace(s[k]))
                        && (forall k :: i + |r| <= k < |s| ==> IsJsWhitespace(s[k]))
  {
    var t := TrimStart(s);
    var r := TrimEnd(t);
    var i := |s| - |t|;
    assert s[i..] == t;
    forall k | i + |r| <= k < |s| ensures IsJsWhitespace(s[k]) {
      assert s[k] == t[k - i];
    }
    assert && 0 <= i <= |s| - |r| && r <= s[i..]
           && (forall k :: 0 <= k < i ==> IsJsWhitespace(s[k]))
           && (forall k :: i + |r| <= k < |s| ==> IsJsWhitespace(s[k]));
  }

  /** Every character of `trim(s)` is a character of `s`. */
  lemma TrimKeepsCharacters(s: string, c: char)
    requires c in Trim(s)
    ensures c in s
  {
    var r := Trim(s);
    var i :| 0 <= i <= |s| - |r| && r <= s[i..];
    var k :| 0 <= k < |r| && r[k] == c;
    assert s[i..][k] == c;
  }

  // ---------------------------------------------------------------------
  // split(sep)[0] and split(sep)

  /** `s.split(sep)[0]`: the longest prefix of `s` without `sep`. */
  function BeforeFirst(s: string, sep: char): (r: string)
    ensures r <= s
    ensures sep !in r
    ensures r == s || s[|r|] == sep
  {
    if s == [] then []
    else if s[0] == sep then []
    else [s[0]] + BeforeFirst(s[1..], sep)
  }

  /** `s.split(sep)` for a one-character separator: never empty, and the
      pieces joined again by `sep` give back `s`. */
  function Split(s: string, sep: char): (parts: seq<string>)
    ensures |parts| > 0
    ensures forall i :: 0 <= i < |parts| ==> sep !in parts[i]
    decreases |s|
  {
    var head := BeforeFirst(s, sep);
    if |head| == |s| then [head]
    else [head] + Split(s[|head| + 1..], sep)
  }

  // ---------------------------------------------------------------------
  // Array.prototype.join

  /** `xs.join(sep)`. */
  function Join(xs: seq<string>, sep: string): (r: string)
    ensures |xs| == 0 ==> r == ""
    ensures |xs| == 1 ==> r == xs[0]
  {
    if |xs| == 0 then ""
    else if |xs| == 1 then xs[0]
    else xs[0] + sep + Join(xs[1..], sep)
  }

  /** A join starts with its first piece, followed by the separator when
      more pieces come, and ends with its last piece. */
  lemma {:induction false} JoinEnds(xs: seq<string>, sep: string)
    requires |xs| > 0
    ensures xs[0] <= Join(xs, sep)
    ensures |xs| > 1 ==> xs[0] + sep <= Join(xs, sep)
    ensures EndsWith(Join(xs, sep), xs[|xs| - 1])
  {
    if |xs| > 1 {
      var rest := Join(xs[1..], sep);
      JoinEnds(xs[1..], sep);
      EndsWithExtends(xs[0] + sep, rest, xs[|xs| - 1]);
      PrefixExtends(xs[0] + sep, xs[0] + sep, rest);
    } else {
      assert EndsWith(xs[0], xs[0]);
    }
  }

  lemma JoinStep(x: string, xs: seq<string>, sep: string)
    requires |xs| > 0
    ensures Join([x] + xs, sep) == x + sep + Join(xs, sep)
  {
    assert ([x] + xs)[1..] == xs;
  }

  /** Every joined element is visible in the joined string. */
  lemma {:induction false} JoinContainsEach(xs: seq<string>, sep: string, i: nat)
    requires i < |xs|
    ensures Contains(Join(xs, sep), xs[i])
  {
    if |xs| == 1 {
      ContainsConcat("", xs[0], "");
      assert "" + xs[0] + "" == xs[0];
    } else if i == 0 {
      ContainsConcat("", xs[0], sep + Join(xs[1..], sep));
      assert "" + xs[0] + (sep + Join(xs[1..], sep)) == Join(xs, sep);
    } else {
      JoinContainsEach(xs[1..], sep, i - 1);
      ContainsConcat(xs[0] + sep, Join(xs[1..], sep), "");
      assert xs[0] + sep + Join(xs[1..], sep) + "" == Join(xs, sep);
      ContainsTransitive(Join(xs, sep), Join(xs[1..], sep), xs[i]);
    }
  }

  lemma {:induction false} BeforeFirstOfJoined(x: string, sep: char, rest: string)
    requires sep !in x
    ensures BeforeFirst(x + [sep] + rest, sep) == x
  {
    var s := x + [sep] + rest;
    if x != [] {
      assert s[1..] == x[1..] + [sep] + rest;
      BeforeFirstOfJoined(x[1..], sep, rest);
      assert [x[0]] + x[1..] == x;
    }
  }

  /** Splitting a join at its separator recovers the pieces, provided
      no piece contains the separator. */
  lemma {:induction false} SplitJoin(xs: seq<string>, sep: char)
    requires |xs| > 0
    requires forall i :: 0 <= i < |xs| ==> sep !in xs[i]
    ensures Split(Join(xs, [sep]), sep) == xs
  {
    var s := Join(xs, [sep]);
    if |xs| == 1 {
      assert sep !in s;
      assert BeforeFirst(s, sep) == s;
    } else {
      var rest := Join(xs[1..], [sep]);
      BeforeFirstOfJoined(xs[0], sep, rest);
      assert s[|xs[0]| + 1..] == rest;
      SplitJoin(xs[1..], sep);
      assert [xs[0]] + xs[1..] == xs;
    }
  }

  // ---------------------------------------------------------------------
  // Number.prototype.toString for integers, and its inverse

  predicate IsDigit(c: char) {
    '0' <= c <= '9'
  }

  function DigitChar(d: nat): (c: char)
    requires d < 10
    ensures IsDigit(c)
  {
    "0123456789"[d]
  }

  function DigitValue(c: char): (d: nat)
    requires IsDigit(c)
    ensures d < 10
  {
    (c as int - '0' as int) as nat
  }

  /** A numeral as `Number.prototype.toString()` writes a natural number:
      decimal digits with no leading zero, except the numeral `"0"` itself. */
  predicate CanonicalNat(s: string) {
    && |s| > 0
    && (forall i :: 0 <= i < |s| ==> IsDigit(s[i]))
    && (|s| > 1 ==> s[0] != '0')
  }

  /** A canonical integer numeral: a canonical natural, or `-` followed by a
      canonical natural other than `"0"`. */
  predicate CanonicalInt(s: string) {
    || CanonicalNat(s)
    || (|s| > 1 && s[0] == '-' && CanonicalNat(s[1..]) && s[1..] != "0")
  }

  /** Decimal rendering of a natural number, without leading zeros. */
  function NatToString(n: nat): (s: string)
    ensures CanonicalNat(s)
  {
    if n < 10 then [DigitChar(n)]
    else NatToString(n / 10) + [DigitChar(n % 10)]
  }

  /** Decimal rendering of an integer, with a leading `-` when negative. */
  function IntToString(i: int): (s: string)
    ensures CanonicalInt(s)
  {
    if i < 0 then
      assert NatToString(0) == "0";
      "-" + NatToString(-i)
    else NatToString(i)
  }

  /** The value of a non-empty string of decimal digits. */
  function ParseNat(s: string): (r: Option<nat>)
    ensures r.Some? <==> |s| > 0 && forall i :: 0 <= i < |s| ==> IsDigit(s[i])
  {
    if |s| == 0 || !IsDigit(s[|s| - 1]) then None
    else if |s| == 1 then Some(DigitValue(s[0]))
    else match ParseNat(s[..|s| - 1])
         case None => None
         case Some(n) => Some(10 * n + DigitValue(s[|s| - 1]))
  }

  /** The value of an optionally negative decimal numeral. */
  function ParseInt(s: string): Option<int> {
    if |s| > 0 && s[0] == '-' then
      match ParseNat(s[1..])
      case None => None
      case Some(n) => Some(-(n as int))
    else
      match ParseNat(s)
      case None => None
      case Some(n) => Some(n as int)
  }

  lemma {:induction false} ParseNatToString(n: nat)
    ensures ParseNat(NatToString(n)) == Some(n)
  {
    var s := NatToString(n);
    if n >= 10 {
      ParseNatToString(n / 10);
      assert s[..|s| - 1] == NatToString(n / 10);
    }
  }

  /** Reading back the decimal rendering of an integer gives the integer. */
  lemma ParseIntToString(i: int)
    ensures ParseInt(IntToString(i)) == Some(i)
  {
    if i < 0 {
      ParseNatToString(-i);
      ParseNegative(NatToString(-i));
    } else {
      var digits := NatToString(i);
      assert IsDigit(digits[0]);
      ParseNatToString(i);
    }
  }

  /** A `-` in front of a numeral negates its value. */
  lemma ParseNegative(digits: string)
    requires ParseNat(digits).Some?
    ensures ParseInt("-" + digits) == Some(-(ParseNat(digits).value as int))
  {
    assert ("-" + digits)[1..] == digits;
  }

  /** A canonical numeral is the rendering of its own value: among the
      numerals denoting a number, `NatToString` picks exactly this one. */
  lemma {:induction false} CanonicalNatIsRendering(s: string)
    requires CanonicalNat(s)
    ensures ParseNat(s).Some? && NatToString(ParseNat(s).value) == s
  {
    if |s| > 1 {
      var init := s[..|s| - 1];
      var last := s[|s| - 1];
      CanonicalInit(s);
      CanonicalNatIsRendering(init);
      var m := ParseNat(init).value;
      assert m != 0 by {
        assert NatToString(0) == "0";
        assert init[0] != '0';
      }
      AppendDigit(m, last);
      assert s == init + [last];
    } else {
      assert DigitChar(DigitValue(s[0])) == s[0];
    }
  }

  /** Dropping the last digit of a canonical numeral of two or more digits
      leaves a canonical numeral that does not start with `0`. */
  lemma CanonicalInit(s: string)
    requires CanonicalNat(s) && |s| > 1
    ensures CanonicalNat(s[..|s| - 1]) && s[..|s| - 1][0] != '0'
  {
    assert s[..|s| - 1][0] == s[0];
  }

  /** Writing a further digit after a positive number's rendering renders
      ten times the number plus that digit. */
  lemma AppendDigit(m: nat, c: char)
    requires m > 0 && IsDigit(c)
    ensures NatToString(10 * m + DigitValue(c)) == NatToString(m) + [c]
  {
    var n := 10 * m + DigitValue(c);
    assert n / 10 == m && n % 10 == DigitValue(c);
    assert DigitChar(DigitValue(c)) == c;
  }

  /** The integer form of `CanonicalNatIsRendering`: a canonical integer
      numeral is exactly `IntToString` of the value it reads as. */
  lemma CanonicalIntIsRendering(s: string)
    requires CanonicalInt(s)
    ensures ParseInt(s).Some? && IntToString(ParseInt(s).value) == s
  {
    if CanonicalNat(s) {
      CanonicalNatIsRendering(s);
      assert s[0] != '-';
    } else {
      var digits := s[1..];
      CanonicalNatIsRendering(digits);
      var n := ParseNat(digits).value;
      assert n != 0 by {
        assert NatToString(0) == "0";
      }
      assert s == "-" + digits;
    }
  }
}

=== FILE: wrappers.dfy ===
/** Optional values (a JavaScript `null`) and success-or-failure results. */
module Wrappers {

  /** `None` stands for JavaScript `null`/`undefined`. */
  datatype Option<+T> = None | Some(value: T)

  /** Either a value or the error that stopped its computation. */
  datatype Result<+R, +E> = Success(value: R) | Failure(error: E)
}
